=== FILE: README.md ===
# DschangMarket storefront logic in Dafny

This project models the decision logic of a marketplace web storefront and its seller console. The storefront keeps all its data in a hosted backend. The modelled parts are:

- the simulated mobile-money gateway (MTN MoMo / Orange Money);
- the checkout page, written as a state-transition function;
- the data-service calls: order creation, product listing and lookup, product upload, store lookup;
- the small pricing and display rules that the pages share.

The model is functional. Entities are immutable datatypes, and every handler is a pure function from a state and its injected inputs to a new state. The backend is an abstract table state (`Api.Db`). Each backend call takes the outcome it would have had as a parameter: an error oracle, or the query's own answer.

Modules follow the source files:

| module | file | source |
|---|---|---|
| `Strings` | strings.dfy | helpers: ASCII case mapping, `\s` on ASCII, decimal rendering of timestamps |
| `Types` | types.dfy | `types.ts`, and the effective price `sale_price \|\| price` |
| `PaymentService` | payment_service.dfy | `services/paymentService.ts` |
| `Api` | api.dfy | `services/api.ts` |
| `Checkout` | checkout.dfy | `pages/Checkout.tsx` |
| `SellerDashboard` | seller_dashboard.dfy | `pages/SellerDashboard.tsx` |
| `ProductCard` | product_card.dfy | `components/ProductCard.tsx` |
| `ProductDetail` | product_detail.dfy | `pages/ProductDetail.tsx` |
| `Layout` | layout.dfy | `components/Layout.tsx` |

Inputs that stand in for the outside world:

- `Math.random()` is the parameter `draw: real`.
- `Date.now()` is the parameter `now: nat`, in milliseconds. Submitting a product reads the clock twice, once for the slug and once for the upload path. These are two separate parameters, `slugNow` and `uploadNow`, so they may differ.
- The signed-in user is `Option<string>`, holding the user id.
- `prompt()` is `Option<string>`; `None` means cancelled.
- Each database or storage write is an `Option<string>` error oracle.
- Each query is a `ListResult` or a `SingleResult`.
- `getPublicUrl` is a function parameter `publicUrl: string -> string`.
- `parseFloat` / `parseInt` of the product form are the parsed integers, passed in.
- The cart store (`useCart`) is not part of this model. Its `cartItems` are the `cart` field of the checkout state. `cartTotal` is an input. `clearCart()` sets the cart to `[]`.

Behaviour of the code worth knowing, which the model keeps:

- The gateway is charged `cartTotal`, and the order records `cartTotal`. The page displays `cartTotal + 1000` as the total, so the 1000 FCFA delivery fee is shown but never charged (`Checkout.ChargedVersusDisplayed`).
- `createOrder` is not transactional. When the items insert fails, the order header stays (`Api.HeaderSurvivesItemsFailure`).
- If recording the order fails after the payment was accepted, the page shows the generic message `'Une erreur est survenue lors de la commande: ' + message`. There is no separate "order recording failed" state. If the items insert fails, the header row already written keeps the payment reference. If the header insert fails, the reference is lost.
- The step `'payment'` is declared but never assigned. A declined payment leaves the step at `'info'`.
- The phone number is checked inside the gateway, after the simulated delay, not before it.

## Model

| member | source | states |
|---|---|---|
| Types.EffectivePrice | services/api.ts:144 | the unit price is the sale price when it is present and non-zero; a missing or zero sale price falls back to the list price |
| Types.FixtureP1EffectivePrice | services/mockData.ts:34-35 | fixture product p1 (list 120000, sale 115000) has effective price 115000 |
| PaymentService.MatchPhone | services/paymentService.ts:24 | a left-to-right matcher accepts exactly the strings of `/^(6\|2)[0-9]{8}$/`: nine characters, the first 6 or 2, the other eight digits |
| PaymentService.PhoneExamples | services/paymentService.ts:24 | "699123456" is valid; "812345678" (wrong first digit) and "69912" (too short) are not |
| PaymentService.InitiatePayment | services/paymentService.ts:13-48 | an invalid phone gives failure, no id and the invalid-number message, whatever the draw; a valid phone with draw > 0.1 succeeds with the success message and the id exactly `PROVIDER-now` (upper-cased provider, a dash, the timestamp in decimal), which parses back to (provider, now); a draw ≤ 0.1 gives failure, no id and the decline message; an id is present iff success |
| PaymentService.TransactionIdRoundTrip | services/paymentService.ts:39 | the id `PROVIDER-timestamp` parses back to the same provider and timestamp |
| PaymentService.AcceptedIdPrefix | services/paymentService.ts:36-41 | an accepted payment's id starts with "MTN-" for MTN and "ORANGE-" for Orange |
| PaymentService.OutcomeIndependentOfAmountAndProvider | services/paymentService.ts:13-47 | the amount never changes the answer; the provider changes only the transaction id, and two providers never share one |
| Strings.ParseNatToString | services/paymentService.ts:39 | the decimal rendering of a timestamp reads back as the same number |
| Layout.CartCountIsTotalQuantity | components/Layout.tsx:17 | the reduce over the cart equals the sum of the quantities; an empty cart counts 0 |
| Layout.CartCountAppend | components/Layout.tsx:17 | appending a line of quantity q raises the count by exactly q |
| Layout.CartCountAtLeastLines | components/Layout.tsx:17 | when every line has quantity at least 1, the count is at least the number of lines |
| Layout.CartBadge | components/Layout.tsx:101-105 | the badge is shown iff the summed quantity is positive, and then it shows that sum |
| Layout.HeaderLinks | components/Layout.tsx:76-92 | account and logout links show iff a user is signed in; otherwise the sign-in link shows |
| ProductCard.RoundHalfUp | components/ProductCard.tsx:15 | `Math.round(n/d)` for d > 0 is the integer r with r ≤ n/d + 1/2 < r + 1 |
| ProductCard.DiscountPercentage | components/ProductCard.tsx:14-16 | the discount is 0 when the sale price is absent or 0 |
| ProductCard.DiscountOfMarkdown | components/ProductCard.tsx:15 | for 0 < sale ≤ price, the discount is 100·(price−sale)/price rounded half up, and lies in [0, 100] |
| ProductCard.MarkupHasNoBadge | components/ProductCard.tsx:14-20 | a sale price above a positive list price gives a discount ≤ 0 and no badge |
| ProductCard.BadgeNeedsSale | components/ProductCard.tsx:20-24 | the "-N%" badge appears only while a sale price is set, and with a positive list price only when the sale price is below it |
| ProductCard.FixtureP1Discount | services/mockData.ts:34-35 | fixture p1 (120000 down to 115000) shows a 4% discount |
| ProductCard.PriceDisplay | components/ProductCard.tsx:60-66 | the shown price is the effective price; the struck-through list price appears iff the sale price is truthy |
| ProductDetail.InitialState | pages/ProductDetail.tsx:13-14 | the page starts with quantity 1 and the first image selected |
| ProductDetail.Decrement | pages/ProductDetail.tsx:93 | minus lowers the quantity by one but never below 1 |
| ProductDetail.Increment | pages/ProductDetail.tsx:100 | plus raises the quantity by one |
| ProductDetail.ApplyClicks | pages/ProductDetail.tsx:91-102 | starting from a quantity ≥ 1, any sequence of clicks leaves it ≥ 1 and raises it by at most the number of clicks |
| ProductDetail.QuantityAlwaysPositive | pages/ProductDetail.tsx:13 | from the initial quantity, the stepper shows at least 1 after any clicks |
| ProductDetail.PlusThenMinus | pages/ProductDetail.tsx:91-102 | plus followed by minus restores the quantity |
| ProductDetail.AddToCart | pages/ProductDetail.tsx:107 | add-to-cart passes the product and the current quantity unchanged, and the page state is not reset |
| ProductDetail.SelectImage | pages/ProductDetail.tsx:47-50 | a thumbnail click selects its own index, which is an index of the images, and keeps the quantity |
| ProductDetail.SelectionStaysValid | pages/ProductDetail.tsx:47-50 | the initial selection, thumbnail clicks, stepper clicks and add-to-cart all keep the selected index inside the images |
| ProductDetail.DisplayImage | pages/ProductDetail.tsx:28-30 | with no images the placeholder URL is shown; otherwise the image at the selected index |
| ProductDetail.DisplayedImageDefined | pages/ProductDetail.tsx:28-30 | a selection made through the thumbnails always names one of the product's images |
| ProductDetail.Render | pages/ProductDetail.tsx:23-30 | loading shows the loading view; a null product after loading shows "Produit non trouvé"; a loaded product always shows the detail view, with the effective price, the strikethrough iff the sale is truthy, the quantity and the selected image |
| Api.ListedStoreName | services/api.ts:28 | the listed store name is the joined name when non-empty, else 'Vendeur Inconnu'; it is never empty |
| Api.GetProducts | services/api.ts:3-30 | an error or null data gives []; otherwise every row in query order, unchanged except for the store name: the joined name when non-empty, else 'Vendeur Inconnu' |
| Api.GetProductById | services/api.ts:32-53 | null iff the query failed; otherwise the row with the joined store name as is, with no default |
| Api.FileExtension | services/api.ts:60 | the extension is a dot-free suffix of the file name |
| Api.FileExtensionSplits | services/api.ts:60 | the extension of `base.ext` is `ext`; a name with no dot is its own extension |
| Api.UploadPathParts | services/api.ts:60-62 | the upload path splits at its last dot into the timestamp in plain decimal, which reads back as `now`, and the file's extension |
| Api.CreateProduct | services/api.ts:55-88 | a failed upload throws "Upload failed: …" before any insert; a successful upload adds the path to the bucket and its public URL to the images; a failed insert throws and inserts nothing, but the uploaded file stays; with no upload or insert error the call succeeds and inserts exactly the draft with the final images |
| Api.CreateProductImageCount | services/api.ts:56-75 | a successful call keeps the given images and appends exactly one URL when a file is given, none otherwise |
| Api.GetStoreByOwner | services/api.ts:92-107 | null on any error, including "no row"; otherwise the row |
| Api.OrderItemsFor | services/api.ts:139-145 | order items match the cart lines one to one and in order, with the same product, store and quantity, and price_at_purchase = effective price |
| Api.ItemsValueMatchesCart | services/api.ts:139-145 | the recorded items are worth exactly the cart's value at effective prices |
| Api.CreateOrder | services/api.ts:111-157 | a failed header insert throws and writes nothing; otherwise one header is appended with status paid and the given user, total, method, address and payment ref; a failed items insert throws and leaves the header; success appends the items of that header |
| Api.CreateOrderPreservesWellFormed | services/api.ts:120-154 | whatever fails, every order item still points at an existing order |
| Api.CreateOrderItemsOnlyOnSuccess | services/api.ts:133-154 | items are written iff both inserts succeed, and then they are worth the cart's value |
| Api.HeaderSurvivesItemsFailure | services/api.ts:147-154 | when the items insert fails the call reports failure, but the header it wrote is not removed |
| Checkout.InitialState | pages/Checkout.tsx:10-16 | the page starts at step 'info', with MTN selected, empty fields, no error and not loading |
| Checkout.Lines | pages/Checkout.tsx:152-158 | one summary line per cart item, in order, showing effective price × quantity |
| Checkout.LinesSumIsCartValue | pages/Checkout.tsx:152-158 | the summary lines add up to the cart's value at effective prices |
| Checkout.Render | pages/Checkout.tsx:18-25 | the empty-cart view shows iff the cart is empty and the step is not 'success'; the confirmation view shows iff the step is 'success'; the form shows the subtotal cartTotal, a total exactly 1000 more, the error, and a pay button disabled iff loading |
| Checkout.PaymentRef | pages/Checkout.tsx:50 | the payment reference is the transaction id when it is non-empty, else 'MOCK-TX' |
| Checkout.HandlePayment | pages/Checkout.tsx:27-64 | an empty field sets the fill-all-fields error and makes no call; otherwise the gateway is asked for cartTotal; a decline shows the gateway message and calls nothing else; an acceptance calls createOrder with the user or null, the cart, cartTotal, address, method and reference; only a successful createOrder clears the cart and sets 'success'; a thrown error gives the prefixed message; loading ends false |
| Checkout.Press | pages/Checkout.tsx:183-185 | a press does nothing unless the form is shown and the button is enabled |
| Checkout.EmptyCartBlocksPayment | pages/Checkout.tsx:18-25 | with an empty cart before success, the empty-cart view shows and no payment can start |
| Checkout.NoDoubleSubmit | pages/Checkout.tsx:183-185 | while loading, pressing pay starts no payment |
| Checkout.CartClearedOnlyAfterOrderRecorded | pages/Checkout.tsx:39-54 | the cart changes only by being emptied, and only after the gateway accepted and the header (with the payment reference and cartTotal) and all items were written |
| Checkout.OrderFailureKeepsCart | pages/Checkout.tsx:58-60 | when createOrder throws, the cart and step stay and the error is the prefixed message of the failing insert; a header failure writes no order, an items failure leaves the orphan header and no items |
| Checkout.SettledAfterEveryOutcome | pages/Checkout.tsx:61-63 | after every outcome loading is false, 'payment' is never entered, and the only step change is 'info' to 'success' |
| Checkout.DeclineIsRetryable | pages/Checkout.tsx:55-57 | a decline shows the gateway message, keeps the form and cart, writes nothing, and leaves the pay button usable |
| Checkout.ChargedVersusDisplayed | pages/Checkout.tsx:37-47 | the amount charged and the amount recorded are both cartTotal, and the displayed total is exactly 1000 more |
| Checkout.AcceptedPaymentCompletesCheckout | pages/Checkout.tsx:35-54 | with all three fields filled, the simulated gateway, a valid phone, an accepting draw and both inserts succeeding, the checkout completes, and the recorded reference names the provider and the time |
| Checkout.InvalidPhoneIsRefused | pages/Checkout.tsx:37-57 | with all three fields filled, the simulated gateway and an invalid phone, the page shows the invalid-number message, keeps the cart and records nothing |
| Checkout.SuccessShowsConfirmation | pages/Checkout.tsx:66-82 | after success the confirmation view shows, with the phone and address, although the cart is now empty |
| SellerDashboard.Slug | pages/SellerDashboard.tsx:77 | the slug contains no whitespace |
| SellerDashboard.SlugOfWord | pages/SellerDashboard.tsx:77 | text without whitespace keeps every character, in order, lower-cased |
| SellerDashboard.SlugOfRun | pages/SellerDashboard.tsx:77 | a non-empty run of whitespace, of any length, becomes exactly one '-' |
| SellerDashboard.SlugConcat | pages/SellerDashboard.tsx:77 | cutting the name anywhere except inside a whitespace run cuts the slug at the matching place, so each maximal run and each stretch of text is slugged on its own |
| SellerDashboard.SlugFromAppend | pages/SellerDashboard.tsx:77 | the slugger processes a concatenation piece by piece, carrying across whether it is inside a run |
| SellerDashboard.SlugOfTwoWords | pages/SellerDashboard.tsx:77 | two words separated by whitespace give both words lower-cased and joined by one dash |
| SellerDashboard.ProductSlug | pages/SellerDashboard.tsx:102 | the product slug is slug(title), then '-', then the timestamp in plain decimal (no leading zero), which reads back as the timestamp |
| SellerDashboard.CreateStore | pages/SellerDashboard.tsx:67-87 | a cancelled or empty name, or no user, creates nothing; otherwise an insert error gives the alert and writes nothing; with a name, a user and no insert error the call succeeds and appends one store with that owner and name, a whitespace-free slug, description 'Nouvelle boutique' and is_verified false, then refreshes |
| SellerDashboard.ProductPayload | pages/SellerDashboard.tsx:95-103 | the payload carries the store id, the form's title, description and category, the parsed price and stock, the timestamped slug and no images |
| SellerDashboard.SubmitProduct | pages/SellerDashboard.tsx:89-125 | with no store nothing happens; otherwise createProduct runs on the payload, whose slug uses one clock read, and the file, whose path uses a second one; success resets every field to '' and the file to null, closes the modal and refreshes; failure keeps the form and alerts; submitting ends false |
| SellerDashboard.SubmittedProductSlug | pages/SellerDashboard.tsx:95-116 | a submission that goes through inserts one product with the store id, the title and a slug starting with slug(title); it has exactly one image iff a file was chosen; the form is cleared |

## Left out

- Calls to the hosted backend (auth, table queries, storage) are not modelled. Their effects are an abstract table state plus injected outcomes. The client library is not part of this model.
- New row ids come from `Api.Db`: a new order's id is the number of orders already stored. Store and product ids are not modelled.
- `hooks/useCart` is not part of this model. Adding, removing and merging cart lines, and how `cartTotal` is computed, are not modelled.
- Latency and timing are left out: `setTimeout`, and the time between `setLoading(true)` and the handler finishing. Each handler is one atomic step. `NoDoubleSubmit` covers the press that would happen while loading.
- `supabase.auth.getUser()` inside `handlePayment` is modelled as always succeeding. Its user is an input.
- `fetchDashboardData` and the dashboard's initial load are left out. They are data fetching and rendering; the model reduces them to a `Refresh` effect.
- Floating point is left out. Prices and amounts are integers. `Math.round` is computed exactly on rationals, so float rounding of the quotient is not modelled. A list price of 0 gives an infinite percentage, as in JavaScript. NaN is not modelled.
- `parseFloat` / `parseInt` of the form fields are left out. Their results are parameters.
- Locale formatting (`toLocaleString`) is not modelled.
- Unicode case mapping and the non-ASCII whitespace that `\s` matches are left out. `Slug` lower-cases only ASCII letters and treats only ASCII whitespace as whitespace.
- JSX layout, styling, console logging, `alert` text beyond its message, and navigation are left out.
- CreateProduct: the source appends the new URL to the caller's own `images` array in place, even when the insert then fails. The model returns a new sequence and leaves the draft unchanged. The only caller passes no images.
- When `sale_price` is 0, `{product.sale_price && …}` renders a stray "0" on the tile and on the detail page, because React prints the number. `PriceLine` records only whether a struck price shows, so this is not modelled.
- The thumbnail strip appears only when there are two or more images. This is rendering and is not modelled.
- `pages/Auth.tsx`, `pages/Home.tsx` and `App.tsx` are not part of this model. They pass calls through to the identity service, fetch and render data, and route.
- `ProductCard.DiscountPercentage`: its contract covers only the no-sale case. The markdown, markup and badge cases are stated by `DiscountOfMarkdown`, `MarkupHasNoBadge` and `BadgeNeedsSale`, for a positive list price. Negative prices are computed but no property is stated about them.

=== FILE: api.dfy ===
/**
 * The data-service calls the pages make. The hosted database is an abstract
 * set of tables; each query or write either succeeds or fails, and which one
 * happens is an input (an error oracle, or the query's answer itself).
 * Order creation writes the header first and the items second, with no
 * rollback of the header if the items fail.
 */
module Api {
  import opened Strings
  import opened Types

  // ---------------------------------------------------------------- tables

  /** A row of `orders` as `createOrder` inserts it; `id` is assigned by the database. */
  datatype OrderRow = OrderRow(
    id: nat,
    userId: Option<string>,
    totalAmount: int,
    status: OrderStatus,
    paymentMethod: string,
    shippingAddress: string,
    paymentRef: string)

  /** A row of `order_items`. */
  datatype OrderItemRow = OrderItemRow(
    orderId: nat,
    productId: string,
    storeId: string,
    quantity: int,
    priceAtPurchase: int)

  /** The fields the seller's form sends to `createProduct`. */
  datatype ProductDraft = ProductDraft(
    storeId: string,
    title: string,
    description: string,
    price: int,
    stockQuantity: int,
    category: string,
    slug: string,
    images: seq<string>)

  /** The fields the seller dashboard inserts into `stores`. */
  datatype NewStore = NewStore(
    ownerId: string,
    name: string,
    slug: string,
    description: string,
    isVerified: bool)

  /** The tables and the storage bucket, as far as these calls write them. */
  datatype Db = Db(
    orders: seq<OrderRow>,
    orderItems: seq<OrderItemRow>,
    products: seq<ProductDraft>,
    stores: seq<NewStore>,
    files: seq<string>)

  /** The state after a call together with what it returned or threw. */
  datatype Written<T> = Written(db: Db, result: Result<T>)

  /** What a list query answers: an error, or data that may be null. */
  datatype ListResult<T> = ListError(message: string) | ListData(data: Option<seq<T>>)

  /** What a `.single()` query answers: an error (no row counts as one) or the row. */
  datatype SingleResult<T> = SingleError(code: string, message: string) | SingleRow(row: T)

  /** A product row with its `stores(name)` join; `store` is `None` when the join is null. */
  datatype ProductJoin = ProductJoin(row: Product, store: Option<string>)

  // ------------------------------------------------------------- products

  const UnknownSeller: string := "Vendeur Inconnu"

  /** `item.stores?.name || 'Vendeur Inconnu'`. */
  function ListedStoreName(store: Option<string>): (r: string)
    ensures r != ""
    ensures store.Some? && store.value != "" ==> r == store.value
    ensures store.None? || store.value == "" ==> r == UnknownSeller
  {
    if store.Some? && store.value != "" then store.value else UnknownSeller
  }

  function Flatten(rows: seq<ProductJoin>): (r: seq<Product>)
    ensures |r| == |rows|
    ensures forall i :: 0 <= i < |rows| ==>
      r[i] == rows[i].row.(storeName := Some(ListedStoreName(rows[i].store)))
  {
    if |rows| == 0 then []
    else [rows[0].row.(storeName := Some(ListedStoreName(rows[0].store)))] + Flatten(rows[1..])
  }

  /**
   * `getProducts()`: nothing on an error or null data; otherwise every row in
   * the order the query returned it, each carrying a non-empty store name.
   */
  function GetProducts(res: ListResult<ProductJoin>): (r: seq<Product>)
    ensures res.ListError? || res.data.None? ==> r == []
    ensures res.ListData? && res.data.Some? ==>
      |r| == |res.data.value|
      && forall i :: 0 <= i < |r| ==>
           r[i] == res.data.value[i].row.(storeName := r[i].storeName)
           && r[i].storeName.Some? && r[i].storeName.value != ""
           && (res.data.value[i].store.Some? && res.data.value[i].store.value != "" ==>
                 r[i].storeName == res.data.value[i].store)
           && (res.data.value[i].store.None? || res.data.value[i].store.value == "" ==>
                 r[i].storeName == Some(UnknownSeller))
  {
    match res
    case ListError(_) => []
    case ListData(None) => []
    case ListData(Some(rows)) => Flatten(rows)
  }

  /** `getProductById(id)`: null on an error, else the row with the joined name as is. */
  function GetProductById(res: SingleResult<ProductJoin>): (r: Option<Product>)
    ensures r.None? <==> res.SingleError?
    ensures res.SingleRow? ==> r == Some(res.row.row.(storeName := res.row.store))
  {
    match res
    case SingleError(_, _) => None
    case SingleRow(j) => Some(j.row.(storeName := j.store))
  }

  // --------------------------------------------------------------- upload

  /** Where the segment after the last '.' begins (0 when there is no '.'). */
  function LastSegmentStart(s: string): (k: nat)
    ensures k <= |s|
    ensures k == 0 || s[k - 1] == '.'
    ensures forall i :: k <= i < |s| ==> s[i] != '.'
  {
    if |s| == 0 || s[|s| - 1] == '.' then |s| else LastSegmentStart(s[..|s| - 1])
  }

  /** `name.split('.').pop()`. */
  function FileExtension(name: string): (r: string)
    ensures '.' !in r
    ensures |r| <= |name| && name[|name| - |r|..] == r
  {
    name[LastSegmentStart(name)..]
  }

  /** A dot followed only by non-dots is the last dot. */
  lemma LastDotAt(s: string, j: nat)
    requires j < |s| && s[j] == '.'
    requires forall i :: j < i < |s| ==> s[i] != '.'
    ensures LastSegmentStart(s) == j + 1
  {
  }

  /** The last dot of `base + "." + ext` is the one just before `ext`. */
  lemma LastDotBeforeExtension(base: string, ext: string)
    requires '.' !in ext
    ensures LastSegmentStart(base + "." + ext) == |base| + 1
  {
    var name := base + "." + ext;
    assert name[|base|] == '.';
    forall i | |base| < i < |name|
      ensures name[i] != '.'
    {
      assert name[i] == ext[i - |base| - 1];
      assert ext[i - |base| - 1] in ext;
    }
    LastDotAt(name, |base|);
  }

  /** The extension is exactly what follows the last dot, and the whole name when there is none. */
  lemma FileExtensionSplits(base: string, ext: string)
    requires '.' !in ext
    ensures FileExtension(base + "." + ext) == ext
    ensures '.' !in base ==> FileExtension(base) == base
  {
    LastDotBeforeExtension(base, ext);
    assert (base + "." + ext)[|base| + 1..] == ext;
    assert forall i :: 0 <= i < |base| ==> base[i] in base;
  }

  /** `${Date.now()}.${fileExt}`. */
  function UploadPath(now: nat, fileName: string): string {
    NatToString(now) + "." + FileExtension(fileName)
  }

  lemma NoDotInDigits(s: string)
    requires AllDigits(s)
    ensures '.' !in s
  {
    assert forall i :: 0 <= i < |s| ==> s[i] != '.';
  }

  /**
   * An upload path splits at its last dot into the timestamp, which reads
   * back as `now`, and the file's own extension.
   */
  lemma UploadPathParts(now: nat, fileName: string)
    ensures var path := UploadPath(now, fileName);
      var k := LastSegmentStart(path);
      && 0 < k
      && path[k..] == FileExtension(fileName)
      && path[..k - 1] == NatToString(now)
      && AllDigits(path[..k - 1])
      && ParseNat(path[..k - 1]) == now
  {
    var stamp := NatToString(now);
    var ext := FileExtension(fileName);
    var path := UploadPath(now, fileName);
    NoDotInDigits(stamp);
    LastDotBeforeExtension(stamp, ext);
    assert path[|stamp| + 1..] == ext;
    assert path[..|stamp|] == stamp;
    ParseNatToString(now);
  }

  datatype FileRef = FileRef(name: string)

  /** The outcomes of the storage upload and of the insert. */
  datatype ProductFaults = ProductFaults(uploadError: Option<string>, insertError: Option<string>)

  const UploadFailedPrefix: string := "Upload failed: "

  /**
   * `createProduct(productData, file)`: upload the file if there is one and
   * append its public URL to the images, then insert the product. An upload
   * failure throws before anything is inserted; an insert failure leaves the
   * uploaded file in the bucket.
   */
  function CreateProduct(
    db: Db, draft: ProductDraft, file: Option<FileRef>, now: nat,
    publicUrl: string -> string, faults: ProductFaults): (w: Written<ProductDraft>)
    ensures w.db.orders == db.orders && w.db.orderItems == db.orderItems && w.db.stores == db.stores
    ensures file.Some? && faults.uploadError.Some? ==>
      w == Written(db, Failure(UploadFailedPrefix + faults.uploadError.value))
    ensures file.None? ==> w.db.files == db.files
    ensures file.Some? && faults.uploadError.None? ==>
      w.db.files == db.files + [UploadPath(now, file.value.name)]
    ensures (file.None? || faults.uploadError.None?) && faults.insertError.Some? ==>
      w.result == Failure(faults.insertError.value) && w.db.products == db.products
    ensures (file.None? || faults.uploadError.None?) && faults.insertError.None? ==>
      w.result.Success?
    ensures w.result.Success? ==>
      && faults.insertError.None?
      && w.db.products == db.products + [w.result.value]
      && w.result.value == draft.(images := w.result.value.images)
      && (file.None? ==> w.result.value.images == draft.images)
      && (file.Some? ==> w.result.value.images == draft.images + [publicUrl(UploadPath(now, file.value.name))])
  {
    if file.Some? && faults.uploadError.Some? then
      Written(db, Failure(UploadFailedPrefix + faults.uploadError.value))
    else
      var path := if file.Some? then UploadPath(now, file.value.name) else "";
      var images := if file.Some? then draft.images + [publicUrl(path)] else draft.images;
      var files := if file.Some? then db.files + [path] else db.files;
      var db1 := db.(files := files);
      if faults.insertError.Some? then
        Written(db1, Failure(faults.insertError.value))
      else
        var row := draft.(images := images);
        Written(db1.(products := db.products + [row]), Success(row))
  }

  /** A successful call adds exactly one image when a file is given and none otherwise. */
  lemma CreateProductImageCount(
    db: Db, draft: ProductDraft, file: Option<FileRef>, now: nat,
    publicUrl: string -> string, faults: ProductFaults)
    requires CreateProduct(db, draft, file, now, publicUrl, faults).result.Success?
    ensures var w := CreateProduct(db, draft, file, now, publicUrl, faults);
      |w.result.value.images| == |draft.images| + (if file.Some? then 1 else 0)
      && w.result.value.images[..|draft.images|] == draft.images
  {
  }

  // ---------------------------------------------------------------- stores

  /** `getStoreByOwner(ownerId)`: null on any error (no store counts as one), else the row. */
  function GetStoreByOwner(res: SingleResult<Store>): (r: Option<Store>)
    ensures r.None? <==> res.SingleError?
    ensures res.SingleRow? ==> r == Some(res.row)
  {
    match res
    case SingleError(_, _) => None
    case SingleRow(s) => Some(s)
  }

  // ---------------------------------------------------------------- orders

  /** One order item per cart line, in cart order, priced at the effective price. */
  function OrderItemsFor(orderId: nat, cart: seq<CartItem>): (r: seq<OrderItemRow>)
    ensures |r| == |cart|
    ensures forall i :: 0 <= i < |cart| ==>
      && r[i].orderId == orderId
      && r[i].productId == cart[i].product.id
      && r[i].storeId == cart[i].product.storeId
      && r[i].quantity == cart[i].quantity
      && r[i].priceAtPurchase == EffectivePrice(cart[i].product)
  {
    if |cart| == 0 then []
    else
      var item := cart[0];
      [OrderItemRow(orderId, item.product.id, item.product.storeId, item.quantity,
                    EffectivePrice(item.product))]
      + OrderItemsFor(orderId, cart[1..])
  }

  /** The value of a list of order items at their recorded prices. */
  function ItemsValue(items: seq<OrderItemRow>): int {
    if |items| == 0 then 0
    else ItemsValue(items[..|items| - 1]) + items[|items| - 1].priceAtPurchase * items[|items| - 1].quantity
  }

  /** The recorded items are worth exactly what the cart lines were worth when bought. */
  lemma {:induction false} ItemsValueMatchesCart(orderId: nat, cart: seq<CartItem>)
    ensures ItemsValue(OrderItemsFor(orderId, cart)) == LinesTotal(cart)
    decreases |cart|
  {
    if |cart| > 0 {
      var items := OrderItemsFor(orderId, cart);
      var init := cart[..|cart| - 1];
      ItemsValueMatchesCart(orderId, init);
      var initItems := OrderItemsFor(orderId, init);
      assert items[..|items| - 1] == initItems;
    }
  }

  /** The outcomes of the two inserts. */
  datatype OrderFaults = OrderFaults(headerError: Option<string>, itemsError: Option<string>)

  /** The header `createOrder` inserts, with the id the database hands out next. */
  function OrderHeader(db: Db, userId: Option<string>, totalAmount: int, shippingAddress: string,
                       paymentMethod: string, paymentRef: string): OrderRow
  {
    OrderRow(|db.orders|, userId, totalAmount, Paid, paymentMethod, shippingAddress, paymentRef)
  }

  /**
   * `createOrder(userId, cartItems, totalAmount, shippingAddress,
   * paymentMethod, paymentRef)`: insert the header, then the items.
   */
  function CreateOrder(
    db: Db, userId: Option<string>, cart: seq<CartItem>, totalAmount: int,
    shippingAddress: string, paymentMethod: string, paymentRef: string,
    faults: OrderFaults): (w: Written<OrderRow>)
    ensures w.db.products == db.products && w.db.stores == db.stores && w.db.files == db.files
    ensures faults.headerError.Some? ==> w == Written(db, Failure(faults.headerError.value))
    ensures faults.headerError.None? ==>
      && |w.db.orders| == |db.orders| + 1
      && w.db.orders[..|db.orders|] == db.orders
      && var h := w.db.orders[|db.orders|];
         && h.userId == userId && h.totalAmount == totalAmount && h.status == Paid
         && h.paymentMethod == paymentMethod && h.shippingAddress == shippingAddress
         && h.paymentRef == paymentRef
         && h.id == |db.orders|
    ensures faults.headerError.None? && faults.itemsError.Some? ==>
      w.result == Failure(faults.itemsError.value) && w.db.orderItems == db.orderItems
    ensures faults.headerError.None? && faults.itemsError.None? ==>
      && w.result == Success(w.db.orders[|db.orders|])
      && w.db.orderItems == db.orderItems + OrderItemsFor(w.result.value.id, cart)
  {
    if faults.headerError.Some? then
      Written(db, Failure(faults.headerError.value))
    else
      var header := OrderHeader(db, userId, totalAmount, shippingAddress, paymentMethod, paymentRef);
      var db1 := db.(orders := db.orders + [header]);
      if faults.itemsError.Some? then
        Written(db1, Failure(faults.itemsError.value))
      else
        Written(db1.(orderItems := db.orderItems + OrderItemsFor(header.id, cart)), Success(header))
  }

  /** Every item points at a stored order and every order id is its position. */
  predicate WellFormed(db: Db) {
    && (forall i :: 0 <= i < |db.orders| ==> db.orders[i].id == i)
    && (forall j :: 0 <= j < |db.orderItems| ==> db.orderItems[j].orderId < |db.orders|)
  }

  /** `createOrder` keeps every item pointing at an existing order, whatever fails. */
  lemma CreateOrderPreservesWellFormed(
    db: Db, userId: Option<string>, cart: seq<CartItem>, totalAmount: int,
    shippingAddress: string, paymentMethod: string, paymentRef: string, faults: OrderFaults)
    requires WellFormed(db)
    ensures WellFormed(CreateOrder(db, userId, cart, totalAmount, shippingAddress,
                                   paymentMethod, paymentRef, faults).db)
  {
    var w := CreateOrder(db, userId, cart, totalAmount, shippingAddress, paymentMethod, paymentRef, faults);
    if faults.headerError.None? {
      assert forall i :: 0 <= i < |db.orders| ==> w.db.orders[i] == db.orders[i];
      if faults.itemsError.None? {
        var items := OrderItemsFor(|db.orders|, cart);
        assert forall j :: |db.orderItems| <= j < |w.db.orderItems| ==>
          w.db.orderItems[j] == items[j - |db.orderItems|];
      }
    }
  }

  /** Items are written only together with their header, and only when both inserts succeed. */
  lemma CreateOrderItemsOnlyOnSuccess(
    db: Db, userId: Option<string>, cart: seq<CartItem>, totalAmount: int,
    shippingAddress: string, paymentMethod: string, paymentRef: string, faults: OrderFaults)
    ensures var w := CreateOrder(db, userId, cart, totalAmount, shippingAddress,
                                 paymentMethod, paymentRef, faults);
      (w.result.Success? <==>
         && faults.headerError.None? && faults.itemsError.None?
         && w.db.orderItems == db.orderItems + OrderItemsFor(|db.orders|, cart))
      && (w.result.Failure? ==> w.db.orderItems == db.orderItems)
      && (w.result.Success? ==> ItemsValue(w.db.orderItems[|db.orderItems|..]) == LinesTotal(cart))
  {
    var w := CreateOrder(db, userId, cart, totalAmount, shippingAddress, paymentMethod, paymentRef, faults);
    if w.result.Success? {
      assert w.db.orderItems[|db.orderItems|..] == OrderItemsFor(|db.orders|, cart);
      ItemsValueMatchesCart(|db.orders|, cart);
    }
  }

  /**
   * There is no rollback: when the items insert fails, the header stays
   * behind while the call reports failure.
   */
  lemma HeaderSurvivesItemsFailure(
    db: Db, userId: Option<string>, cart: seq<CartItem>, totalAmount: int,
    shippingAddress: string, paymentMethod: string, paymentRef: string, e: string)
    ensures var w := CreateOrder(db, userId, cart, totalAmount, shippingAddress,
                                 paymentMethod, paymentRef, OrderFaults(None, Some(e)));
      w.result == Failure(e)
      && w.db.orders == db.orders
           + [OrderHeader(db, userId, totalAmount, shippingAddress, paymentMethod, paymentRef)]
  {
  }
}

=== FILE: checkout.dfy ===
/**
 * The checkout page as a state machine. Its state is the step
 * ('info' | 'payment' | 'success'), the form, the loading flag, the error
 * shown and the cart. Pressing "Payer Maintenant" runs `handlePayment`:
 * check the three fields, ask the gateway for the cart total, and on
 * acceptance record the order and only then empty the cart. The gateway's
 * answer, the signed-in user and the database's failures are inputs; the
 * cart total comes from the cart store and is an input too.
 */
module Checkout {
  import opened Types
  import opened PaymentService
  import Api

  datatype Step = InfoStep | PaymentStep | SuccessStep

  datatype Form = Form(fullName: string, address: string, phone: string, provider: Provider)

  datatype CheckoutState = CheckoutState(
    step: Step,
    form: Form,
    loading: bool,
    error: Option<string>,
    cart: seq<CartItem>)

  const ShippingFee: int := 1000
  const MissingFieldsMessage: string := "Veuillez remplir tous les champs."
  const OrderErrorPrefix: string := "Une erreur est survenue lors de la commande: "
  const FallbackPaymentRef: string := "MOCK-TX"

  /** The page as first rendered over the current cart: step 'info', MTN selected, empty fields. */
  function InitialState(cart: seq<CartItem>): (s: CheckoutState)
    ensures s.step == InfoStep && !s.loading && s.error.None? && s.cart == cart
    ensures s.form.provider == Mtn && s.form.phone == "" && s.form.address == "" && s.form.fullName == ""
  {
    CheckoutState(InfoStep, Form("", "", "", Mtn), false, None, cart)
  }

  // ------------------------------------------------------------------ view

  datatype Line = Line(title: string, quantity: int, amount: int)

  datatype View =
    | EmptyCartView
    | ConfirmationView(phone: string, address: string)
    | FormView(lines: seq<Line>, subtotal: int, shipping: int, total: int,
               error: Option<string>, payDisabled: bool)

  /** The order summary: one line per cart item at its effective price. */
  function Lines(cart: seq<CartItem>): (r: seq<Line>)
    ensures |r| == |cart|
    ensures forall i :: 0 <= i < |cart| ==>
      r[i] == Line(cart[i].product.title, cart[i].quantity,
                   EffectivePrice(cart[i].product) * cart[i].quantity)
  {
    if |cart| == 0 then []
    else
      var item := cart[0];
      [Line(item.product.title, item.quantity, EffectivePrice(item.product) * item.quantity)]
      + Lines(cart[1..])
  }

  function LinesSum(lines: seq<Line>): int {
    if |lines| == 0 then 0 else LinesSum(lines[..|lines| - 1]) + lines[|lines| - 1].amount
  }

  /** The summary lines add up to the cart's value at effective prices. */
  lemma {:induction false} LinesSumIsCartValue(cart: seq<CartItem>)
    ensures LinesSum(Lines(cart)) == LinesTotal(cart)
    decreases |cart|
  {
    if |cart| > 0 {
      LinesSumIsCartValue(cart[..|cart| - 1]);
      assert Lines(cart)[..|cart| - 1] == Lines(cart[..|cart| - 1]);
    }
  }

  /** What the component renders for a state and the cart store's total. */
  function Render(s: CheckoutState, cartTotal: int): (v: View)
    ensures v == EmptyCartView <==> |s.cart| == 0 && s.step != SuccessStep
    ensures v.ConfirmationView? <==> s.step == SuccessStep
    ensures v.FormView? ==>
      && v.lines == Lines(s.cart)
      && v.subtotal == cartTotal
      && v.total - v.subtotal == ShippingFee
      && v.error == s.error
      && v.payDisabled == s.loading
  {
    if |s.cart| == 0 && s.step != SuccessStep then EmptyCartView
    else if s.step == SuccessStep then ConfirmationView(s.form.phone, s.form.address)
    else FormView(Lines(s.cart), cartTotal, ShippingFee, cartTotal + ShippingFee, s.error, s.loading)
  }

  /** The pay button is on screen and enabled. */
  predicate CanPay(s: CheckoutState, cartTotal: int) {
    var v := Render(s, cartTotal);
    v.FormView? && !v.payDisabled
  }

  // ------------------------------------------------------------ transition

  /** `!phoneNumber || !address || !fullName` is false. */
  predicate FieldsFilled(f: Form) {
    f.phone != "" && f.address != "" && f.fullName != ""
  }

  /** `paymentResponse.transactionId || 'MOCK-TX'`. */
  function PaymentRef(resp: MobileMoneyResponse): (r: string)
    ensures r != ""
    ensures resp.transactionId.Some? && resp.transactionId.value != "" ==> r == resp.transactionId.value
    ensures resp.transactionId.None? || resp.transactionId.value == "" ==> r == FallbackPaymentRef
  {
    if resp.transactionId.Some? && resp.transactionId.value != "" then resp.transactionId.value
    else FallbackPaymentRef
  }

  datatype PaymentRequest = PaymentRequest(provider: Provider, phone: string, amount: int)

  datatype OrderRequest = OrderRequest(
    userId: Option<string>,
    items: seq<CartItem>,
    totalAmount: int,
    shippingAddress: string,
    paymentMethod: string,
    paymentRef: string)

  /** The state after the handler settles, the calls it made, and the database after them. */
  datatype Outcome = Outcome(
    state: CheckoutState,
    payment: Option<PaymentRequest>,
    order: Option<OrderRequest>,
    db: Api.Db)

  /**
   * `handlePayment()`. `gateway` is what the payment call answered, `user`
   * the signed-in user's id, and `faults` the database's answers to the two
   * inserts of `createOrder`, the only call in the handler that throws.
   */
  function HandlePayment(
    s: CheckoutState, cartTotal: int, gateway: MobileMoneyResponse,
    user: Option<string>, db: Api.Db, faults: Api.OrderFaults): (r: Outcome)
    ensures !FieldsFilled(s.form) ==>
      r == Outcome(s.(error := Some(MissingFieldsMessage)), None, None, db)
    ensures FieldsFilled(s.form) ==>
      && r.payment == Some(PaymentRequest(s.form.provider, s.form.phone, cartTotal))
      && !r.state.loading
      && r.state.form == s.form
    ensures FieldsFilled(s.form) && !gateway.success ==>
      r == Outcome(s.(error := Some(gateway.message), loading := false), r.payment, None, db)
    ensures FieldsFilled(s.form) && gateway.success ==>
      r.order == Some(OrderRequest(user, s.cart, cartTotal, s.form.address,
                                   ProviderName(s.form.provider), PaymentRef(gateway)))
    ensures r.order.Some? ==>
      var w := Api.CreateOrder(db, user, s.cart, cartTotal, s.form.address,
                               ProviderName(s.form.provider), PaymentRef(gateway), faults);
      && r.db == w.db
      && (w.result.Success? ==>
            r.state == s.(cart := [], step := SuccessStep, error := None, loading := false))
      && (w.result.Failure? ==>
            r.state == s.(error := Some(OrderErrorPrefix + w.result.message), loading := false))
  {
    if !FieldsFilled(s.form) then
      Outcome(s.(error := Some(MissingFieldsMessage)), None, None, db)
    else
      var request := PaymentRequest(s.form.provider, s.form.phone, cartTotal);
      // setError(null); setLoading(true)
      var pending := s.(error := None, loading := true);
      if gateway.success then
        var order := OrderRequest(user, s.cart, cartTotal, s.form.address,
                                  ProviderName(s.form.provider), PaymentRef(gateway));
        var w := Api.CreateOrder(db, order.userId, order.items, order.totalAmount,
                                 order.shippingAddress, order.paymentMethod, order.paymentRef, faults);
        match w.result
        case Success(_) =>
          Outcome(pending.(cart := [], step := SuccessStep, loading := false), Some(request), Some(order), w.db)
        case Failure(msg) =>
          Outcome(pending.(error := Some(OrderErrorPrefix + msg), loading := false),
                  Some(request), Some(order), w.db)
      else
        Outcome(pending.(error := Some(gateway.message), loading := false), Some(request), None, db)
  }

  /** A press of the pay button: nothing happens unless the button is shown and enabled. */
  function Press(
    s: CheckoutState, cartTotal: int, gateway: MobileMoneyResponse,
    user: Option<string>, db: Api.Db, faults: Api.OrderFaults): (r: Outcome)
    ensures !CanPay(s, cartTotal) ==> r == Outcome(s, None, None, db)
    ensures CanPay(s, cartTotal) ==> r == HandlePayment(s, cartTotal, gateway, user, db, faults)
  {
    if CanPay(s, cartTotal) then HandlePayment(s, cartTotal, gateway, user, db, faults)
    else Outcome(s, None, None, db)
  }

  // ------------------------------------------------------------ properties

  /** With an empty cart before success, the empty-cart page shows and no payment can start. */
  lemma EmptyCartBlocksPayment(
    s: CheckoutState, cartTotal: int, gateway: MobileMoneyResponse,
    user: Option<string>, db: Api.Db, faults: Api.OrderFaults)
    requires |s.cart| == 0 && s.step != SuccessStep
    ensures Render(s, cartTotal) == EmptyCartView
    ensures Press(s, cartTotal, gateway, user, db, faults) == Outcome(s, None, None, db)
  {
  }

  /** While the handler is in flight the button is disabled, so a second press does nothing. */
  lemma NoDoubleSubmit(
    s: CheckoutState, cartTotal: int, gateway: MobileMoneyResponse,
    user: Option<string>, db: Api.Db, faults: Api.OrderFaults)
    requires s.loading
    ensures Press(s, cartTotal, gateway, user, db, faults).payment.None?
  {
  }

  /**
   * The cart is emptied only after the order header and all its items have
   * been written, with the payment reference the gateway gave.
   */
  lemma CartClearedOnlyAfterOrderRecorded(
    s: CheckoutState, cartTotal: int, gateway: MobileMoneyResponse,
    user: Option<string>, db: Api.Db, faults: Api.OrderFaults)
    requires |s.cart| > 0
    ensures var r := HandlePayment(s, cartTotal, gateway, user, db, faults);
      r.state.cart != s.cart ==>
        && r.state.cart == []
        && r.state.step == SuccessStep
        && gateway.success
        && |r.db.orders| == |db.orders| + 1
        && r.db.orders[|db.orders|].paymentRef == PaymentRef(gateway)
        && r.db.orders[|db.orders|].totalAmount == cartTotal
        && r.db.orderItems == db.orderItems + Api.OrderItemsFor(|db.orders|, s.cart)
  {
    var r := HandlePayment(s, cartTotal, gateway, user, db, faults);
    if r.state.cart != s.cart {
      var w := Api.CreateOrder(db, user, s.cart, cartTotal, s.form.address,
                               ProviderName(s.form.provider), PaymentRef(gateway), faults);
      assert w.result.Success?;
    }
  }

  /**
   * A failure to record the order keeps the cart and the step, and says why.
   * A header failure writes nothing; an items failure leaves the header behind.
   */
  lemma OrderFailureKeepsCart(
    s: CheckoutState, cartTotal: int, gateway: MobileMoneyResponse,
    user: Option<string>, db: Api.Db, faults: Api.OrderFaults)
    requires FieldsFilled(s.form) && gateway.success
    requires faults.headerError.Some? || faults.itemsError.Some?
    ensures var r := HandlePayment(s, cartTotal, gateway, user, db, faults);
      && r.state.cart == s.cart
      && r.state.step == s.step
      && r.state.error == Some(OrderErrorPrefix + (if faults.headerError.Some? then faults.headerError.value
                                                    else faults.itemsError.value))
      && r.db.orderItems == db.orderItems
      && (faults.headerError.Some? ==> r.db.orders == db.orders)
      && (faults.headerError.None? ==> |r.db.orders| == |db.orders| + 1)
  {
  }

  /** After any outcome the page is no longer loading, and 'payment' is never entered. */
  lemma SettledAfterEveryOutcome(
    s: CheckoutState, cartTotal: int, gateway: MobileMoneyResponse,
    user: Option<string>, db: Api.Db, faults: Api.OrderFaults)
    requires !s.loading && s.step != PaymentStep
    ensures var r := HandlePayment(s, cartTotal, gateway, user, db, faults);
      && !r.state.loading
      && r.state.step != PaymentStep
      && (r.state.step != s.step ==> s.step == InfoStep && r.state.step == SuccessStep)
  {
  }

  /** A declined payment leaves the page ready for another try with the same form. */
  lemma DeclineIsRetryable(
    s: CheckoutState, cartTotal: int, gateway: MobileMoneyResponse,
    user: Option<string>, db: Api.Db, faults: Api.OrderFaults)
    requires CanPay(s, cartTotal) && FieldsFilled(s.form) && !gateway.success
    ensures var r := HandlePayment(s, cartTotal, gateway, user, db, faults);
      CanPay(r.state, cartTotal) && r.state.form == s.form && r.state.cart == s.cart
      && r.state.error == Some(gateway.message) && r.db == db
  {
  }

  /** The amount charged and recorded is the cart total; the page displays 1000 more. */
  lemma ChargedVersusDisplayed(
    s: CheckoutState, cartTotal: int, gateway: MobileMoneyResponse,
    user: Option<string>, db: Api.Db, faults: Api.OrderFaults)
    requires CanPay(s, cartTotal) && FieldsFilled(s.form) && gateway.success
    ensures var r := HandlePayment(s, cartTotal, gateway, user, db, faults);
      var v := Render(s, cartTotal);
      && r.payment.value.amount == cartTotal
      && r.order.value.totalAmount == cartTotal
      && v.total == r.payment.value.amount + ShippingFee
  {
  }

  /**
   * End to end with the simulated gateway: a valid phone and an accepting
   * draw, with both inserts succeeding, empty the cart and record an order
   * whose payment reference names the provider and the time.
   */
  lemma AcceptedPaymentCompletesCheckout(
    s: CheckoutState, cartTotal: int, draw: real, now: nat,
    user: Option<string>, db: Api.Db)
    requires FieldsFilled(s.form) && IsValidPhone(s.form.phone) && draw > DeclineThreshold
    ensures var gateway := InitiatePayment(s.form.provider, s.form.phone, cartTotal, draw, now);
      var r := HandlePayment(s, cartTotal, gateway, user, db, Api.OrderFaults(None, None));
      && r.state.step == SuccessStep
      && r.state.cart == []
      && r.state.error.None?
      && ParseTransactionId(r.db.orders[|db.orders|].paymentRef) == Some((s.form.provider, now))
  {
  }

  /** An invalid phone number reaches the gateway, which refuses it; nothing is recorded. */
  lemma InvalidPhoneIsRefused(
    s: CheckoutState, cartTotal: int, draw: real, now: nat,
    user: Option<string>, db: Api.Db, faults: Api.OrderFaults)
    requires FieldsFilled(s.form) && !IsValidPhone(s.form.phone)
    ensures var gateway := InitiatePayment(s.form.provider, s.form.phone, cartTotal, draw, now);
      var r := HandlePayment(s, cartTotal, gateway, user, db, faults);
      && r.state.error == Some(InvalidPhoneMessage)
      && r.state.cart == s.cart
      && r.order.None?
      && r.db == db
  {
  }

  /** The confirmation page stays up once reached, even though the cart is now empty. */
  lemma SuccessShowsConfirmation(
    s: CheckoutState, cartTotal: int, gateway: MobileMoneyResponse,
    user: Option<string>, db: Api.Db)
    requires FieldsFilled(s.form) && gateway.success
    ensures var r := HandlePayment(s, cartTotal, gateway, user, db, Api.OrderFaults(None, None));
      Render(r.state, cartTotal) == ConfirmationView(s.form.phone, s.form.address)
  {
  }
}

=== FILE: layout.dfy ===
/**
 * The page frame: the cart badge in the header and the account links that
 * depend on whether someone is signed in. The badge count is a left fold
 * over the cart lines adding up their quantities.
 */
module Layout {
  import opened Types

  /** The sum of the quantities, peeled from the end of the cart. */
  function TotalQuantity(items: seq<CartItem>): int {
    if |items| == 0 then 0 else TotalQuantity(items[..|items| - 1]) + items[|items| - 1].quantity
  }

  /** `items.reduce((acc, item) => acc + item.quantity, acc)`. */
  function FoldQuantities(items: seq<CartItem>, acc: int): int {
    if |items| == 0 then acc else FoldQuantities(items[1..], acc + items[0].quantity)
  }

  function CartCount(items: seq<CartItem>): int {
    FoldQuantities(items, 0)
  }

  /** Adding a line at the front adds its quantity. */
  lemma {:induction false} TotalQuantityCons(item: CartItem, rest: seq<CartItem>)
    ensures TotalQuantity([item] + rest) == item.quantity + TotalQuantity(rest)
    decreases |rest|
  {
    var s := [item] + rest;
    if |rest| > 0 {
      assert s[..|s| - 1] == [item] + rest[..|rest| - 1];
      TotalQuantityCons(item, rest[..|rest| - 1]);
    } else {
      assert s[..|s| - 1] == [];
    }
  }

  /** The fold starting from `acc` is `acc` plus the sum of the quantities. */
  lemma {:induction false} FoldIsSum(items: seq<CartItem>, acc: int)
    ensures FoldQuantities(items, acc) == acc + TotalQuantity(items)
    decreases |items|
  {
    if |items| > 0 {
      FoldIsSum(items[1..], acc + items[0].quantity);
      assert items == [items[0]] + items[1..];
      TotalQuantityCons(items[0], items[1..]);
    }
  }

  /** The badge count is the sum of the quantities; an empty cart counts 0. */
  lemma CartCountIsTotalQuantity(items: seq<CartItem>)
    ensures CartCount(items) == TotalQuantity(items)
    ensures |items| == 0 ==> CartCount(items) == 0
  {
    FoldIsSum(items, 0);
  }

  /** Appending a line of quantity q raises the count by exactly q. */
  lemma CartCountAppend(items: seq<CartItem>, item: CartItem)
    ensures CartCount(items + [item]) == CartCount(items) + item.quantity
  {
    CartCountIsTotalQuantity(items);
    CartCountIsTotalQuantity(items + [item]);
    assert (items + [item])[..|items|] == items;
  }

  /** With every line holding at least one unit, the count is at least the number of lines. */
  lemma {:induction false} CartCountAtLeastLines(items: seq<CartItem>)
    requires forall i :: 0 <= i < |items| ==> items[i].quantity >= 1
    ensures CartCount(items) >= |items|
  {
    CartCountIsTotalQuantity(items);
    TotalAtLeastLines(items);
  }

  lemma {:induction false} TotalAtLeastLines(items: seq<CartItem>)
    requires forall i :: 0 <= i < |items| ==> items[i].quantity >= 1
    ensures TotalQuantity(items) >= |items|
    decreases |items|
  {
    if |items| > 0 {
      TotalAtLeastLines(items[..|items| - 1]);
    }
  }

  /** `{cartCount > 0 && <span>{cartCount}</span>}`: the number shown, if any. */
  function CartBadge(items: seq<CartItem>): (r: Option<int>)
    ensures r.Some? <==> TotalQuantity(items) > 0
    ensures r.Some? ==> r.value == TotalQuantity(items)
  {
    CartCountIsTotalQuantity(items);
    var count := CartCount(items);
    if count > 0 then Some(count) else None
  }

  datatype HeaderLink = Account | Logout | Login

  /** The header shows account and logout for a signed-in user, otherwise the sign-in link. */
  function HeaderLinks(user: Option<string>): (r: set<HeaderLink>)
    ensures Account in r <==> user.Some?
    ensures Logout in r <==> user.Some?
    ensures Login in r <==> user.None?
  {
    if user.Some? then {Account, Logout} else {Login}
  }
}

=== FILE: payment_service.dfy ===
/**
 * The simulated mobile-money gateway. The phone number is checked against
 * the Cameroonian local format (nine digits, the first a 6 or a 2); a valid
 * number is then accepted or declined by a random draw, and an accepted
 * payment gets a transaction id made of the upper-cased provider name, a
 * dash and the current time in milliseconds. The draw and the clock are
 * parameters here; the amount is taken but never consulted.
 */
module PaymentService {
  import opened Strings
  import opened Types

  datatype Provider = Mtn | Orange

  /** The provider as the checkout page names it ('mtn' | 'orange'). */
  function ProviderName(p: Provider): string {
    match p
    case Mtn => "mtn"
    case Orange => "orange"
  }

  const InvalidPhoneMessage: string :=
    "Numéro de téléphone invalide. Utilisez un format camerounais (ex: 699...)"
  const SuccessMessage: string :=
    "Paiement effectué avec succès. Votre commande est confirmée."
  const DeclineMessage: string :=
    "Le paiement a échoué ou a été annulé par l'utilisateur. Veuillez réessayer."

  /** The draw must exceed this for the payment to go through. */
  const DeclineThreshold: real := 0.1

  /** The language of `/^(6|2)[0-9]{8}$/`. */
  predicate IsValidPhone(s: string) {
    |s| == 9 && (s[0] == '6' || s[0] == '2') && forall i :: 1 <= i < 9 ==> IsDigit(s[i])
  }

  /**
   * A left-to-right matcher for the phone pattern, as a regular-expression
   * engine runs it: one leading character from {6, 2}, then digits until the
   * ninth character, then end of input.
   */
  method MatchPhone(s: string) returns (ok: bool)
    ensures ok <==> IsValidPhone(s)
  {
    if |s| != 9 || (s[0] != '6' && s[0] != '2') {
      return false;
    }
    var i := 1;
    while i < |s|
      invariant 1 <= i <= |s|
      invariant forall j :: 1 <= j < i ==> IsDigit(s[j])
    {
      if !IsDigit(s[i]) {
        return false;
      }
      i := i + 1;
    }
    return true;
  }

  lemma PhoneExamples()
    ensures IsValidPhone("699123456")
    ensures !IsValidPhone("812345678")
    ensures !IsValidPhone("69912")
  {
  }

  /** `${provider.toUpperCase()}-${Date.now()}`. */
  function TransactionId(p: Provider, now: nat): (r: string)
    ensures p == Mtn ==> |r| > 4 && r[..4] == "MTN-" && r[4..] == NatToString(now)
    ensures p == Orange ==> |r| > 7 && r[..7] == "ORANGE-" && r[7..] == NatToString(now)
  {
    assert ToUpper("mtn") == "MTN";
    assert ToUpper("orange") == "ORANGE";
    ToUpper(ProviderName(p)) + "-" + NatToString(now)
  }

  /** Reads a transaction id back into the provider and the timestamp. */
  function ParseTransactionId(id: string): Option<(Provider, nat)> {
    if |id| > 4 && id[..4] == "MTN-" && AllDigits(id[4..]) then
      Some((Mtn, ParseNat(id[4..])))
    else if |id| > 7 && id[..7] == "ORANGE-" && AllDigits(id[7..]) then
      Some((Orange, ParseNat(id[7..])))
    else
      None
  }

  /** A transaction id determines the provider and the timestamp it was made from. */
  lemma {:induction false} TransactionIdRoundTrip(p: Provider, now: nat)
    ensures ParseTransactionId(TransactionId(p, now)) == Some((p, now))
  {
    var id := TransactionId(p, now);
    ParseNatToString(now);
    if p == Mtn {
      assert id[4..] == NatToString(now);
    } else {
      assert id[7..] == NatToString(now);
      assert id[..4] != "MTN-" by { assert id[0] == 'O'; }
    }
  }

  /**
   * `initiateMobileMoneyPayment(provider, phoneNumber, amount)` with
   * `Math.random()` as `draw` and `Date.now()` as `now`.
   */
  function InitiatePayment(provider: Provider, phone: string, amount: int, draw: real, now: nat)
    : (r: MobileMoneyResponse)
    ensures !IsValidPhone(phone) ==>
      r == MobileMoneyResponse(false, None, InvalidPhoneMessage)
    ensures IsValidPhone(phone) && draw > DeclineThreshold ==>
      && r.success && r.message == SuccessMessage
      && r.transactionId == Some(TransactionId(provider, now))
      && ParseTransactionId(r.transactionId.value) == Some((provider, now))
    ensures IsValidPhone(phone) && draw <= DeclineThreshold ==>
      r == MobileMoneyResponse(false, None, DeclineMessage)
    ensures r.success <==> r.transactionId.Some?
  {
    if !IsValidPhone(phone) then
      MobileMoneyResponse(false, None, InvalidPhoneMessage)
    else if draw > DeclineThreshold then
      TransactionIdRoundTrip(provider, now);
      MobileMoneyResponse(true, Some(TransactionId(provider, now)), SuccessMessage)
    else
      MobileMoneyResponse(false, None, DeclineMessage)
  }

  /** An accepted payment's id starts with "MTN-" or "ORANGE-". */
  lemma AcceptedIdPrefix(provider: Provider, phone: string, amount: int, draw: real, now: nat)
    requires InitiatePayment(provider, phone, amount, draw, now).success
    ensures var id := InitiatePayment(provider, phone, amount, draw, now).transactionId.value;
      (provider == Mtn && |id| > 4 && id[..4] == "MTN-")
      || (provider == Orange && |id| > 7 && id[..7] == "ORANGE-")
  {
  }

  /**
   * The amount never changes the answer, and the provider changes nothing
   * but the transaction id.
   */
  lemma OutcomeIndependentOfAmountAndProvider(
    p1: Provider, p2: Provider, phone: string, a1: int, a2: int, draw: real, now: nat)
    ensures InitiatePayment(p1, phone, a1, draw, now) == InitiatePayment(p1, phone, a2, draw, now)
    ensures var r1 := InitiatePayment(p1, phone, a1, draw, now);
      var r2 := InitiatePayment(p2, phone, a2, draw, now);
      r1.success == r2.success && r1.message == r2.message
      && (p1 != p2 && r1.success ==> r1.transactionId != r2.transactionId)
  {
    var r1 := InitiatePayment(p1, phone, a1, draw, now);
    var r2 := InitiatePayment(p2, phone, a2, draw, now);
    if p1 != p2 && r1.success {
      assert ParseTransactionId(r1.transactionId.value) != ParseTransactionId(r2.transactionId.value);
    }
  }
}

=== FILE: product_card.dfy ===
/**
 * The product tile: a "-N%" badge computed from the list and sale prices,
 * and the price line (effective price, with the list price struck through
 * while a sale is on). The percentage is `Math.round` of a quotient; with
 * integer prices it is computed exactly here, and a zero list price gives
 * the infinities JavaScript would produce.
 */
module ProductCard {
  import opened Types

  /** A JavaScript number as far as the badge can see it. */
  datatype Percent = Finite(value: int) | PlusInfinity | MinusInfinity

  /** `discount > 0`. */
  predicate Positive(d: Percent) {
    d == PlusInfinity || (d.Finite? && d.value > 0)
  }

  /** `Math.round(n / d)` for `d > 0`: the nearest integer, halves rounded up. */
  function RoundHalfUp(n: int, d: int): (r: int)
    requires d > 0
    ensures 2 * d * r <= 2 * n + d < 2 * d * (r + 1)
  {
    (2 * n + d) / (2 * d)
  }

  /**
   * `sale_price ? Math.round(((price - sale_price) / price) * 100) : 0`.
   */
  function DiscountPercentage(p: Product): (r: Percent)
    ensures !SaleActive(p) ==> r == Finite(0)
  {
    if !SaleActive(p) then Finite(0)
    else
      var sale := p.salePrice.value;
      if p.price > 0 then Finite(RoundHalfUp(100 * (p.price - sale), p.price))
      else if p.price < 0 then Finite(RoundHalfUp(100 * (sale - p.price), -p.price))
      else if sale > 0 then MinusInfinity
      else PlusInfinity
  }

  /**
   * For a genuine markdown (0 < sale <= price) the badge is the percentage
   * saved, rounded half up, and lies between 0 and 100.
   */
  lemma DiscountOfMarkdown(p: Product)
    requires p.salePrice.Some? && 0 < p.salePrice.value <= p.price
    ensures DiscountPercentage(p).Finite?
    ensures var v := DiscountPercentage(p).value;
      var saved := 100 * (p.price - p.salePrice.value);
      2 * p.price * v <= 2 * saved + p.price < 2 * p.price * (v + 1)
    ensures 0 <= DiscountPercentage(p).value <= 100
  {
    var d := p.price;
    var v := DiscountPercentage(p).value;
    var saved := 100 * (d - p.salePrice.value);
    assert 0 <= saved < 100 * d;
    SignOfProduct(2 * d, v + 1);
    SignOfProduct(d, 2 * v - 201);
    assert d * (2 * v - 201) == 2 * d * v - 201 * d;
  }

  /** A positive factor does not change the sign of a product. */
  lemma SignOfProduct(d: int, x: int)
    requires d > 0
    ensures d * x > 0 ==> x > 0
    ensures d * x < 0 ==> x < 0
  {
  }

  /** A sale price above the list price never yields a positive discount. */
  lemma MarkupHasNoBadge(p: Product)
    requires p.salePrice.Some? && 0 < p.price < p.salePrice.value
    ensures DiscountPercentage(p).Finite? && DiscountPercentage(p).value <= 0
    ensures !ShowsBadge(p)
  {
    var v := DiscountPercentage(p).value;
    var saved := 100 * (p.price - p.salePrice.value);
    assert saved <= -100;
    SignOfProduct(2 * p.price, v);
  }

  /** `{discountPercentage > 0 && <span>-{discountPercentage}%</span>}`. */
  predicate ShowsBadge(p: Product) {
    Positive(DiscountPercentage(p))
  }

  /** The badge appears only while a sale price is set, and then only when it actually saves. */
  lemma BadgeNeedsSale(p: Product)
    ensures ShowsBadge(p) ==> SaleActive(p)
    ensures p.price > 0 && ShowsBadge(p) ==> p.salePrice.value < p.price
  {
    if p.price > 0 && SaleActive(p) && p.salePrice.value >= p.price {
      SignOfProduct(2 * p.price, DiscountPercentage(p).value - 1);
    }
  }

  /** Fixture p1 (120000 down to 115000) saves 4.17%, shown as -4%. */
  lemma FixtureP1Discount()
    ensures DiscountPercentage(FixtureP1()) == Finite(4)
  {
  }

  /** The price line: the amount shown and, when a sale is on, the struck-through list price. */
  datatype PriceLine = PriceLine(shown: int, struck: Option<int>)

  /** Both the tile and the detail page render prices this way. */
  function PriceDisplay(p: Product): (r: PriceLine)
    ensures r.shown == EffectivePrice(p)
    ensures r.struck.Some? <==> SaleActive(p)
    ensures r.struck.Some? ==> r.struck.value == p.price && r.shown == p.salePrice.value
    ensures r.struck.None? ==> r.shown == p.price
  {
    PriceLine(EffectivePrice(p), if SaleActive(p) then Some(p.price) else None)
  }
}

=== FILE: product_detail.dfy ===
/**
 * The product page: a quantity stepper that never goes below one, an
 * add-to-cart button that hands over the current quantity, the price line,
 * and an image viewer whose selected index only ever comes from a
 * thumbnail of the loaded product.
 */
module ProductDetail {
  import opened Types
  import ProductCard

  const PlaceholderImage: string := "https://via.placeholder.com/400"
  const NotFoundText: string := "Produit non trouvé"

  /** The page's local state once the product has been fetched. */
  datatype PageState = PageState(qty: int, activeImage: int)

  /** `useState(1)` and `useState(0)`. */
  function InitialState(): (s: PageState)
    ensures s.qty == 1 && s.activeImage == 0
  {
    PageState(1, 0)
  }

  /** The minus button: `setQty(Math.max(1, qty - 1))`. */
  function Decrement(qty: int): (r: int)
    ensures r >= 1
    ensures qty > 1 ==> r == qty - 1
    ensures qty <= 1 ==> r == 1
  {
    if qty - 1 > 1 then qty - 1 else 1
  }

  /** The plus button: `setQty(qty + 1)`. */
  function Increment(qty: int): (r: int)
    ensures r == qty + 1
  {
    qty + 1
  }

  datatype Click = Minus | Plus

  /** The quantity after a sequence of stepper clicks, oldest first. */
  function ApplyClicks(qty: int, clicks: seq<Click>): (r: int)
    requires qty >= 1
    ensures r >= 1
    ensures r <= qty + |clicks|
    decreases |clicks|
  {
    if |clicks| == 0 then qty
    else
      var next := if clicks[0] == Minus then Decrement(qty) else Increment(qty);
      ApplyClicks(next, clicks[1..])
  }

  /** Whatever the clicks, the stepper shows at least 1. */
  lemma QuantityAlwaysPositive(clicks: seq<Click>)
    ensures ApplyClicks(InitialState().qty, clicks) >= 1
  {
  }

  /** Pressing plus then minus comes back to where it started. */
  lemma PlusThenMinus(qty: int)
    requires qty >= 1
    ensures ApplyClicks(qty, [Plus, Minus]) == qty
  {
    assert [Plus, Minus][1..] == [Minus];
  }

  /** What add-to-cart asks the cart store for. */
  datatype AddRequest = AddRequest(product: Product, quantity: int)

  /** `addToCart(product, qty)`: the request carries qty, and the page state stays as it was. */
  function AddToCart(s: PageState, p: Product): (r: (AddRequest, PageState))
    ensures r.0.product == p && r.0.quantity == s.qty
    ensures r.1 == s
  {
    (AddRequest(p, s.qty), s)
  }

  /** Clicking thumbnail `idx`; a thumbnail exists for every index of the images. */
  function SelectImage(s: PageState, images: seq<string>, idx: nat): (r: PageState)
    requires idx < |images|
    ensures r.activeImage == idx && r.qty == s.qty
  {
    s.(activeImage := idx)
  }

  /** The selected index points into the images, or is the initial 0. */
  predicate ValidSelection(s: PageState, images: seq<string>) {
    s.activeImage == 0 || 0 <= s.activeImage < |images|
  }

  lemma SelectionStaysValid(s: PageState, images: seq<string>, idx: nat, p: Product, clicks: seq<Click>)
    requires idx < |images|
    requires s.qty >= 1
    ensures ValidSelection(InitialState(), images)
    ensures ValidSelection(SelectImage(s, images, idx), images)
    ensures ValidSelection(s, images) ==> ValidSelection(AddToCart(s, p).1, images)
    ensures ValidSelection(s, images) ==> ValidSelection(s.(qty := ApplyClicks(s.qty, clicks)), images)
  {
  }

  /**
   * The big image: `images[activeImage]` when there are images, otherwise the
   * placeholder; `None` stands for JavaScript's `undefined` if the index
   * were ever out of range.
   */
  function DisplayImage(images: seq<string>, active: int): (r: Option<string>)
    ensures |images| == 0 ==> r == Some(PlaceholderImage)
    ensures 0 <= active < |images| ==> r == Some(images[active])
  {
    if |images| > 0 then
      if 0 <= active < |images| then Some(images[active]) else None
    else Some(PlaceholderImage)
  }

  /** A selection made through the thumbnails always names a real image. */
  lemma DisplayedImageDefined(s: PageState, images: seq<string>)
    requires ValidSelection(s, images)
    ensures DisplayImage(images, s.activeImage).Some?
    ensures |images| > 0 ==> DisplayImage(images, s.activeImage).value in images
  {
  }

  datatype Page =
    | Loading
    | NotFound(text: string)
    | Detail(image: Option<string>, price: ProductCard.PriceLine, qty: int, storeName: Option<string>)

  /** What the component renders. */
  function Render(loading: bool, product: Option<Product>, s: PageState): (r: Page)
    ensures loading <==> r == Loading
    ensures !loading && product.None? ==> r == NotFound(NotFoundText)
    ensures !loading && product.Some? ==> r.Detail?
    ensures r.Detail? ==>
              && product.Some?
              && r.qty == s.qty
              && r.price.shown == EffectivePrice(product.value)
              && (r.price.struck.Some? <==> SaleActive(product.value))
              && r.image == DisplayImage(product.value.images, s.activeImage)
  {
    if loading then Loading
    else if product.None? then NotFound(NotFoundText)
    else
      var p := product.value;
      Detail(DisplayImage(p.images, s.activeImage), ProductCard.PriceDisplay(p), s.qty, p.storeName)
  }
}

=== FILE: seller_dashboard.dfy ===
/**
 * The seller console: creating a store from a prompted name, and the
 * add-product form. Both derive a URL slug by lower-casing and turning each
 * run of whitespace into one dash (`s.toLowerCase().replace(/\s+/g, '-')`);
 * a product's slug also gets the current time appended.
 */
module SellerDashboard {
  import opened Strings
  import opened Types
  import Api

  // ------------------------------------------------------------------ slug

  predicate NoWhitespace(s: string) {
    forall i :: 0 <= i < |s| ==> !IsWhitespace(s[i])
  }

  /**
   * The slug of `s`, where `inRun` says whether the character before `s`
   * was whitespace that has already produced its dash.
   */
  function SlugFrom(s: string, inRun: bool): (r: string)
    ensures NoWhitespace(r)
    ensures |r| <= |s|
  {
    if |s| == 0 then []
    else if IsWhitespace(s[0]) then
      (if inRun then [] else "-") + SlugFrom(s[1..], true)
    else [ToLowerChar(s[0])] + SlugFrom(s[1..], false)
  }

  /** `s.toLowerCase().replace(/\s+/g, '-')`. */
  function Slug(s: string): (r: string)
    ensures NoWhitespace(r)
  {
    SlugFrom(s, false)
  }

  predicate AllWhitespace(s: string) {
    forall i :: 0 <= i < |s| ==> IsWhitespace(s[i])
  }

  /** Text without whitespace keeps every character, in order, lower-cased. */
  lemma {:induction false} SlugOfWord(s: string, inRun: bool)
    requires NoWhitespace(s)
    ensures SlugFrom(s, inRun) == ToLower(s)
    decreases |s|
  {
    if |s| > 0 {
      SlugOfWord(s[1..], false);
    }
  }

  /** A run of whitespace, however long, becomes a single dash. */
  lemma {:induction false} SlugOfRun(s: string)
    requires |s| > 0 && AllWhitespace(s)
    ensures Slug(s) == "-"
  {
    RunAfterDash(s[1..]);
  }

  lemma {:induction false} RunAfterDash(s: string)
    requires AllWhitespace(s)
    ensures SlugFrom(s, true) == []
    decreases |s|
  {
    if |s| > 0 {
      RunAfterDash(s[1..]);
    }
  }

  /** Whether `s` leaves the slugger inside a whitespace run. */
  function EndsInRun(s: string, inRun: bool): bool {
    if |s| == 0 then inRun else IsWhitespace(s[|s| - 1])
  }

  /** The slugger reads a concatenation piece by piece, carrying the run flag across. */
  lemma {:induction false} SlugFromAppend(x: string, y: string, inRun: bool)
    ensures SlugFrom(x + y, inRun) == SlugFrom(x, inRun) + SlugFrom(y, EndsInRun(x, inRun))
    decreases |x|
  {
    if |x| > 0 {
      assert (x + y)[1..] == x[1..] + y;
      var next := IsWhitespace(x[0]);
      SlugFromAppend(x[1..], y, next);
      assert EndsInRun(x[1..], next) == EndsInRun(x, inRun);
    } else {
      assert x + y == y;
    }
  }

  /** The flag matters only when the text starts with whitespace. */
  lemma FlagIrrelevantBeforeWord(y: string)
    requires |y| > 0 && !IsWhitespace(y[0])
    ensures SlugFrom(y, true) == SlugFrom(y, false)
  {
  }

  /**
   * Cutting the name anywhere except inside a whitespace run cuts the slug
   * at the matching place: maximal runs and the text between them are
   * slugged independently.
   */
  lemma SlugConcat(x: string, y: string)
    requires |x| > 0 && |y| > 0
    requires !(IsWhitespace(x[|x| - 1]) && IsWhitespace(y[0]))
    ensures Slug(x + y) == Slug(x) + Slug(y)
  {
    SlugFromAppend(x, y, false);
    if IsWhitespace(x[|x| - 1]) {
      FlagIrrelevantBeforeWord(y);
    }
  }

  /**
   * Two words separated by whitespace give the two words lower-cased and
   * joined by one dash ("Tech Cameroun" gives "tech-cameroun").
   */
  lemma SlugOfTwoWords(a: string, gap: string, b: string)
    requires |a| > 0 && |b| > 0 && |gap| > 0
    requires NoWhitespace(a) && AllWhitespace(gap) && NoWhitespace(b)
    ensures Slug(a + gap + b) == ToLower(a) + "-" + ToLower(b)
  {
    SlugOfWord(a, false);
    SlugOfWord(b, false);
    SlugOfRun(gap);
    var tail := gap + b;
    SlugConcat(gap, b);
    assert Slug(tail) == "-" + ToLower(b);
    assert tail[0] == gap[0];
    assert a + gap + b == a + tail;
    SlugConcat(a, tail);
  }

  /** `title.toLowerCase().replace(/\s+/g, '-') + '-' + Date.now()`. */
  function ProductSlug(title: string, now: nat): (r: string)
    ensures |r| > |Slug(title)| + 1
    ensures r[..|Slug(title)|] == Slug(title) && r[|Slug(title)|] == '-'
    ensures AllDigits(r[|Slug(title)| + 1..]) && ParseNat(r[|Slug(title)| + 1..]) == now
    ensures r[|Slug(title)| + 1..] == NatToString(now)
  {
    ParseNatToString(now);
    var r := Slug(title) + "-" + NatToString(now);
    assert r[|Slug(title)| + 1..] == NatToString(now);
    r
  }

  // ----------------------------------------------------------- create store

  const NewStoreDescription: string := "Nouvelle boutique"
  const StoreErrorPrefix: string := "Erreur création boutique: "

  /** What the dashboard does after the handler: nothing, reload its data, or show an alert. */
  datatype Effect = NoEffect | Refresh | Alert(message: string)

  /**
   * `handleCreateStore()`: `name` is what the prompt returned (None when
   * cancelled), `user` the signed-in user's id, `insertError` the database's
   * answer to the insert.
   */
  function CreateStore(db: Api.Db, name: Option<string>, user: Option<string>,
                       insertError: Option<string>): (r: (Api.Db, Effect))
    ensures name.None? || name.value == "" || user.None? ==> r == (db, NoEffect)
    ensures r.0.orders == db.orders && r.0.products == db.products && r.0.files == db.files
    ensures r.1 == Refresh <==> name.Some? && name.value != "" && user.Some? && insertError.None?
    ensures r.1 == Refresh <==> |r.0.stores| == |db.stores| + 1
    ensures r.1 == Refresh ==>
      && r.0.stores[..|db.stores|] == db.stores
      && var st := r.0.stores[|db.stores|];
         && st.ownerId == user.value && st.name == name.value
         && st.slug == Slug(name.value) && NoWhitespace(st.slug)
         && st.description == NewStoreDescription && !st.isVerified
    ensures r.1.Alert? <==> name.Some? && name.value != "" && user.Some? && insertError.Some?
    ensures r.1.Alert? ==> r.0 == db && r.1.message == StoreErrorPrefix + insertError.value
  {
    if name.None? || name.value == "" then (db, NoEffect)
    else if user.None? then (db, NoEffect)
    else if insertError.Some? then (db, Alert(StoreErrorPrefix + insertError.value))
    else
      var row := Api.NewStore(user.value, name.value, Slug(name.value), NewStoreDescription, false);
      (db.(stores := db.stores + [row]), Refresh)
  }

  // ----------------------------------------------------------- add product

  /** The add-product form's fields, all text as typed. */
  datatype ProductForm = ProductForm(
    title: string, description: string, price: string, category: string, stock: string)

  const EmptyForm: ProductForm := ProductForm("", "", "", "", "")
  const SubmitErrorPrefix: string := "Erreur: "

  datatype FormState = FormState(
    form: ProductForm,
    file: Option<Api.FileRef>,
    submitting: bool,
    showAddModal: bool)

  datatype SubmitOutcome = SubmitOutcome(
    state: FormState,
    draft: Option<Api.ProductDraft>,
    db: Api.Db,
    effect: Effect)

  /** The payload `handleProductSubmit` builds; `price` and `stock` are the parsed numbers. */
  function ProductPayload(store: Store, form: ProductForm, price: int, stock: int, now: nat)
    : (d: Api.ProductDraft)
    ensures d.storeId == store.id && d.title == form.title && d.description == form.description
    ensures d.category == form.category && d.images == []
    ensures d.price == price && d.stockQuantity == stock
    ensures d.slug == ProductSlug(form.title, now)
  {
    Api.ProductDraft(store.id, form.title, form.description, price, stock, form.category,
                     ProductSlug(form.title, now), [])
  }

  /**
   * `handleProductSubmit()`: `store` is the seller's store if loaded; `price`
   * and `stock` are what `parseFloat` and `parseInt` made of the fields.
   * The slug and the upload path read the clock separately, so they get
   * their own timestamps `slugNow` and `uploadNow`.
   */
  function SubmitProduct(
    s: FormState, store: Option<Store>, price: int, stock: int, slugNow: nat, uploadNow: nat,
    db: Api.Db, publicUrl: string -> string, faults: Api.ProductFaults): (r: SubmitOutcome)
    ensures store.None? ==> r == SubmitOutcome(s, None, db, NoEffect)
    ensures store.Some? ==> !r.state.submitting
    ensures store.Some? ==>
      var w := Api.CreateProduct(db, ProductPayload(store.value, s.form, price, stock, slugNow),
                                 s.file, uploadNow, publicUrl, faults);
      && r.db == w.db
      && r.draft == Some(ProductPayload(store.value, s.form, price, stock, slugNow))
      && (w.result.Success? ==>
            && r.state == FormState(EmptyForm, None, false, false)
            && r.effect == Refresh)
      && (w.result.Failure? ==>
            && r.state == s.(submitting := false)
            && r.effect == Alert(SubmitErrorPrefix + w.result.message))
  {
    if store.None? then SubmitOutcome(s, None, db, NoEffect)
    else
      var payload := ProductPayload(store.value, s.form, price, stock, slugNow);
      var w := Api.CreateProduct(db, payload, s.file, uploadNow, publicUrl, faults);
      match w.result
      case Success(_) =>
        SubmitOutcome(FormState(EmptyForm, None, false, false), Some(payload), w.db, Refresh)
      case Failure(msg) =>
        SubmitOutcome(s.(submitting := false), Some(payload), w.db, Alert(SubmitErrorPrefix + msg))
  }

  /** A submission that goes through publishes one product whose slug has no whitespace. */
  lemma SubmittedProductSlug(
    s: FormState, store: Store, price: int, stock: int, slugNow: nat, uploadNow: nat,
    db: Api.Db, publicUrl: string -> string)
    ensures var r := SubmitProduct(s, Some(store), price, stock, slugNow, uploadNow, db, publicUrl,
                                   Api.ProductFaults(None, None));
      && |r.db.products| == |db.products| + 1
      && var p := r.db.products[|db.products|];
         p.storeId == store.id && p.title == s.form.title
         && p.slug[..|Slug(s.form.title)|] == Slug(s.form.title)
         && (s.file.Some? <==> |p.images| == 1)
         && r.state.form == EmptyForm && r.state.file.None?
  {
  }
}

=== FILE: strings.dfy ===
/**
 * Character and string helpers shared by the storefront model: ASCII case
 * mapping, ASCII whitespace, and the decimal rendering of a non-negative
 * integer (what a template literal `${n}` produces for a millisecond
 * timestamp) together with its parser.
 */
module Strings {

  predicate IsDigit(c: char) {
    '0' <= c <= '9'
  }

  predicate AllDigits(s: string) {
    forall i :: 0 <= i < |s| ==> IsDigit(s[i])
  }

  /** The characters `\s` matches in the ASCII range. */
  predicate IsWhitespace(c: char) {
    c == ' ' || c == '\t' || c == '\n' || c == '\r' || c == '\U{0B}' || c == '\U{0C}'
  }

  predicate IsUpperAscii(c: char) {
    'A' <= c <= 'Z'
  }

  predicate IsLowerAscii(c: char) {
    'a' <= c <= 'z'
  }

  function ToLowerChar(c: char): (r: char)
    ensures !IsUpperAscii(r)
    ensures IsWhitespace(r) <==> IsWhitespace(c)
    ensures !IsUpperAscii(c) ==> r == c
  {
    if IsUpperAscii(c) then (c as int + 32) as char else c
  }

  function ToUpperChar(c: char): (r: char)
    ensures !IsLowerAscii(r)
    ensures !IsLowerAscii(c) ==> r == c
  {
    if IsLowerAscii(c) then (c as int - 32) as char else c
  }

  /** `String.prototype.toLowerCase`, restricted to ASCII letters. */
  function ToLower(s: string): (r: string)
    ensures |r| == |s|
    ensures forall i :: 0 <= i < |s| ==> r[i] == ToLowerChar(s[i])
  {
    if |s| == 0 then [] else [ToLowerChar(s[0])] + ToLower(s[1..])
  }

  /** `String.prototype.toUpperCase`, restricted to ASCII letters. */
  function ToUpper(s: string): (r: string)
    ensures |r| == |s|
    ensures forall i :: 0 <= i < |s| ==> r[i] == ToUpperChar(s[i])
  {
    if |s| == 0 then [] else [ToUpperChar(s[0])] + ToUpper(s[1..])
  }

  function DigitChar(d: nat): (c: char)
    requires d < 10
    ensures IsDigit(c)
  {
    ('0' as int + d) as char
  }

  function DigitValue(c: char): (d: nat)
    requires IsDigit(c)
    ensures d < 10
    ensures DigitChar(d) == c
  {
    c as int - '0' as int
  }

  /** Decimal rendering of a natural number, without leading zeros. */
  function NatToString(n: nat): (r: string)
    ensures |r| > 0
    ensures AllDigits(r)
    ensures r[0] == '0' ==> n == 0 && |r| == 1
  {
    if n < 10 then [DigitChar(n)] else NatToString(n / 10) + [DigitChar(n % 10)]
  }

  /** Reads a string of decimal digits as a natural number. */
  function ParseNat(s: string): nat
    requires AllDigits(s)
  {
    if |s| == 0 then 0 else ParseNat(s[..|s| - 1]) * 10 + DigitValue(s[|s| - 1])
  }

  /** Parsing a rendered number gives the number back. */
  lemma {:induction false} ParseNatToString(n: nat)
    ensures ParseNat(NatToString(n)) == n
  {
    var r := NatToString(n);
    if n >= 10 {
      var prefix := NatToString(n / 10);
      assert r[..|r| - 1] == prefix;
      ParseNatToString(n / 10);
      assert DigitValue(DigitChar(n % 10)) == n % 10;
    } else {
      assert DigitValue(DigitChar(n)) == n;
    }
  }
}

=== FILE: types.dfy ===
/**
 * The records the storefront passes around (products, cart lines, stores,
 * the payment gateway's answer) and the one pricing rule every page shares:
 * a product's effective unit price is its sale price when that is truthy,
 * otherwise its list price.
 */
module Types {

  datatype Option<+T> = None | Some(value: T)

  /** A value or the message of the error that was thrown instead. */
  datatype Result<+T> = Success(value: T) | Failure(message: string)

  /**
   * A product row. Prices are whole FCFA amounts; `salePrice` is absent when
   * the product is not on sale. `storeName` is the joined store name.
   */
  datatype Product = Product(
    id: string,
    storeId: string,
    storeName: Option<string>,
    title: string,
    slug: string,
    description: string,
    price: int,
    salePrice: Option<int>,
    stockQuantity: int,
    images: seq<string>,
    category: string,
    ratingAvg: real,
    ratingCount: int,
    createdAt: string)

  /** One cart line: a snapshot of the product and how many of it. */
  datatype CartItem = CartItem(product: Product, quantity: int)

  datatype Store = Store(
    id: string,
    ownerId: string,
    name: string,
    slug: string,
    description: Option<string>,
    logoUrl: Option<string>,
    isVerified: bool,
    commissionRate: int)

  /** The payment gateway's answer. */
  datatype MobileMoneyResponse = MobileMoneyResponse(
    success: bool,
    transactionId: Option<string>,
    message: string)

  datatype OrderStatus = Pending | Paid | Processing | Shipped | Delivered | Cancelled

  /** JavaScript truthiness of an optional number: present and non-zero. */
  predicate SaleActive(p: Product) {
    p.salePrice.Some? && p.salePrice.value != 0
  }

  /**
   * `sale_price || price`: a sale price of 0 is falsy, so it falls back to
   * the list price exactly like a missing one.
   */
  function EffectivePrice(p: Product): (r: int)
    ensures r == p.price || (p.salePrice.Some? && r == p.salePrice.value)
    ensures SaleActive(p) ==> r == p.salePrice.value
    ensures p.salePrice.None? || p.salePrice == Some(0) ==> r == p.price
    ensures r != p.price ==> SaleActive(p) && r == p.salePrice.value
  {
    if SaleActive(p) then p.salePrice.value else p.price
  }

  /** The amount of one cart line at its effective price. */
  function LineAmount(item: CartItem): int {
    EffectivePrice(item.product) * item.quantity
  }

  /** The sum of the line amounts, peeled from the end of the cart. */
  function LinesTotal(cart: seq<CartItem>): int {
    if |cart| == 0 then 0 else LinesTotal(cart[..|cart| - 1]) + LineAmount(cart[|cart| - 1])
  }

  /** Product p1 of the fixture data: list price 120000, sale price 115000. */
  function FixtureP1(): Product {
    Product("p1", "s1", Some("Tech Cameroun"), "Smartphone Infinix Note 30 Pro",
      "infinix-note-30-pro", "", 120000, Some(115000), 10,
      ["https://picsum.photos/400/400?random=10", "https://picsum.photos/400/400?random=11"],
      "Electronics", 4.5, 23, "")
  }

  lemma FixtureP1EffectivePrice()
    ensures EffectivePrice(FixtureP1()) == 115000
  {
  }
}
